=== FILE: README.md ===
# portfolio_blog content layer in Dafny

A Dafny model of the logic behind the portfolio and blog site: its content
repository, the home page's derivations, the contact form's schema and the
long-form markup rule table. File I/O and front-matter parsing are replaced by
values, and each operation is a pure function over them.

- `Content` (`content.dfy`) models `src/lib/content.ts`:
  - A directory is a `Directory`: its entries in `readdir` order, each holding
    the parsed front matter or the error that reading or parsing raised, plus an
    optional `readdir` error code.
  - `ListFiles` keeps the `.md`/`.mdx` names. `Slug` strips the extension
    case-insensitively.
  - `Collect` is the shared loop of `loadPosts`/`loadProjects`.
  - `LoadPosts` and `LoadProjects` sort with the stable reference sort from
    `Sorting`.
  - `Resolve` is the `.md`-then-`.mdx` lookup used by `LoadPost` and
    `LoadProject`.
- `Home` (`home.dfy`) models `src/components/home-content.tsx`. It covers the
  featured projects, the recent posts, the skill chips, the skill filter and
  the chip toggle.
- `Contact` (`contact.dfy`) models the `contactSchema` of
  `src/components/contact-form.tsx`. Email syntax is a parameter.
- `Markup` (`markup.dfy`) models the `mdxComponents` table of
  `src/lib/mdx-components.tsx`. It is a closed sum type of node kinds with one
  rule each, plus the inline/fenced decision for code.
- `Sorting` (`sorting.dfy`) models `Array.prototype.sort` with a comparator.
  The comparator is a total preorder, and the sort is stable.
- `Seqs` (`seqs.dfy`) and `Wrappers` (`wrappers.dfy`) are sequence helpers and
  `Option`/`Result`.

Behaviour of the code worth knowing:

- A file that cannot be read or parsed aborts the whole listing with its error.
  `loadPosts` and `loadProjects` do not catch the exceptions of `readFile` or of
  the front-matter parser.
- Slugs are not unique within a listing. `a.md` and `a.mdx` are both listed,
  both under the slug `a`: see `Content.SlugsCanCollide`.
- A chip click is a toggle against the current selection. Clicking one chip
  twice in a row gives back the starting selection when it was empty or that
  same chip, and leaves nothing selected when another chip was selected: see
  `Home.ToggleTwice`.

## Model

| member | source | states |
|---|---|---|
| Content.IsPublished | portfolio_blog/src/lib/content.ts:42-44 | a post is published when its `status` is absent or exactly `published`; any other value is not |
| Content.DraftIsNotPublished | portfolio_blog/src/lib/content.ts:42-44 | a `draft` status is not published, so such front matter never passes the listing gate |
| Content.ListFiles | portfolio_blog/src/lib/content.ts:46-54 | a missing directory (ENOENT) lists nothing; any other `readdir` error is returned as the failure; otherwise an entry is listed iff its name ends in `.md` or `.mdx` (case-sensitive) |
| Content.ContentFileIff | portfolio_blog/src/lib/content.ts:49 | a name is a content file iff it is some text followed by `.md` or by `.mdx` |
| Content.ListFilesAppend | portfolio_blog/src/lib/content.ts:46-54 | listing entries `a` then `b` gives the listing of `a` followed by the listing of `b`, so directory order is kept |
| Content.ListFilesOne | portfolio_blog/src/lib/content.ts:49 | a single entry is listed iff its name ends in `.md` or `.mdx` |
| Content.ListFilesCount | portfolio_blog/src/lib/content.ts:46-54 | a content file is listed as many times as the directory holds it, and any other entry not at all |
| Content.Slug | portfolio_blog/src/lib/content.ts:70 | the slug is a prefix of the file name; either what was removed is `.md`/`.mdx` in some letter case, or the name is unchanged and has no such suffix |
| Content.SlugStripsExtension | portfolio_blog/src/lib/content.ts:109 | round trip: for any base and any letter case of `.md`/`.mdx`, the slug of base+extension is the base |
| Content.ToPostMeta | portfolio_blog/src/lib/content.ts:77 | the listed record carries the file-name slug, whatever `slug` key the front matter holds, and every other front-matter field unchanged |
| Content.ToProjectMeta | portfolio_blog/src/lib/content.ts:114 | the same for projects: the derived slug replaces the front matter's, and the other fields are copied |
| Content.Collect | portfolio_blog/src/lib/content.ts:69-78 | the first unreadable file's error aborts the loop; otherwise the result is the reference list of records of the admitted files, in file order, one per file |
| Content.PostAdmitted | portfolio_blog/src/lib/content.ts:74-75 | a post file enters the listing when its title and summary are non-empty, a non-empty date is given, and it is published |
| Content.NewerOrSame | portfolio_blog/src/lib/content.ts:62 | the sort comparator: a post may precede another when its date is not older |
| Content.LoadPosts | portfolio_blog/src/lib/content.ts:65-81 | fails exactly when the listing fails or a listed file is unreadable, with the `readdir` error or that of the first unreadable file; otherwise a permutation of the admitted posts, with dates non-increasing |
| Content.PostListingMembers | portfolio_blog/src/lib/content.ts:74-77 | a post is listed iff some listed file is readable, has title, date and summary, is published, and yields it under the slug of its file name |
| Content.PostListingCount | portfolio_blog/src/lib/content.ts:69-78 | the listing has one post per admitted file |
| Content.NewerOrSameIsTotalPreorder | portfolio_blog/src/lib/content.ts:61-63 | the date comparator is consistent: total and transitive |
| Content.PostsNewestFirst | portfolio_blog/src/lib/content.ts:62 | a strictly newer post appears strictly earlier |
| Content.PostTiesKeepDirectoryOrder | portfolio_blog/src/lib/content.ts:80 | posts with equal dates keep the order their files were listed in (stable sort) |
| Content.HelloPostListed | portfolio_blog/src/lib/content.ts:65-81 | a directory with just `hello.md` (title, date, summary, no status) lists exactly one post with slug `hello` and the same fields |
| Content.SlugsCanCollide | portfolio_blog/src/lib/content.ts:69-77 | `a.md` and `a.mdx` with admissible front matter give two listed posts, both with slug `a` |
| Content.Resolve | portfolio_blog/src/lib/content.ts:84-96 | no file iff neither `<slug>.md` nor `<slug>.mdx` exists; `.md` wins when it exists, `.mdx` otherwise |
| Content.LoadPost | portfolio_blog/src/lib/content.ts:83-102 | none when no file resolves; exactly the resolved file's error when it is unreadable; a post iff the resolved front matter is published, with the requested slug overriding any in the front matter |
| Content.DraftPostHidden | portfolio_blog/src/lib/content.ts:100 | a resolved draft is reported missing by the lookup, and no listed post is a draft |
| Content.UntitledPostFoundButNotListed | portfolio_blog/src/lib/content.ts:74-101 | a published post without a title is found by the lookup but left out of the listing |
| Content.ProjectAdmitted | portfolio_blog/src/lib/content.ts:113 | a project file enters the listing when its title, summary and role are non-empty; its status is not looked at |
| Content.ProjectPrecedes | portfolio_blog/src/lib/content.ts:117-120 | the sort comparator: featured before non-featured, and by title between two of the same kind |
| Content.ProjectOrderIsTotalPreorder | portfolio_blog/src/lib/content.ts:117-120 | featured-first then title is a consistent comparator whenever the title order is |
| Content.LoadProjects | portfolio_blog/src/lib/content.ts:104-121 | fails exactly when the listing fails or a listed file is unreadable, with the `readdir` error or that of the first unreadable file; otherwise a permutation of the admitted projects, every featured one before every other, titles ordered within each group |
| Content.FeaturedFirst | portfolio_blog/src/lib/content.ts:117-120 | a list sorted by the project comparator puts every featured project ahead of every non-featured one, in title order within each group |
| Content.ProjectListingMembers | portfolio_blog/src/lib/content.ts:108-115 | a project is listed iff some listed file is readable, has title, summary and role, and yields it; status is never consulted |
| Content.LoadProject | portfolio_blog/src/lib/content.ts:123-141 | none when no file resolves; exactly the resolved file's error when it is unreadable; otherwise the front matter under the requested slug, with no status or field check |
| Sorting.InsertionSort | portfolio_blog/src/lib/content.ts:80 | the sorted list is ordered by the comparator and is a permutation of the input |
| Sorting.SortStable | portfolio_blog/src/lib/content.ts:117-120 | for every class of comparator-equivalent elements, the sort keeps that class in input order |
| Home.FeaturedProjects | portfolio_blog/src/components/home-content.tsx:21 | at most three projects, all featured, forming the prefix of the featured subsequence of length min(3, number of featured) |
| Home.FewFeaturedAllShown | portfolio_blog/src/components/home-content.tsx:21 | with at most three featured projects, each of them is shown |
| Home.RecentPosts | portfolio_blog/src/components/home-content.tsx:22 | the prefix of the posts of length min(3, number of posts) |
| Home.SkillsFromProjects | portfolio_blog/src/components/home-content.tsx:24-30 | at most three chips, no duplicates, exactly the distinct values among the first three stack entries, in first-occurrence order |
| Home.SkillComesFromStack | portfolio_blog/src/components/home-content.tsx:24-30 | every chip comes from the stack of some featured project |
| Home.FilteredProjects | portfolio_blog/src/components/home-content.tsx:32-34 | with no selection (or an empty one) the featured projects are unchanged; otherwise exactly those whose stack includes the skill, in order |
| Home.FilteredPosts | portfolio_blog/src/components/home-content.tsx:36-38 | with no selection (or an empty one) the recent posts are unchanged; otherwise exactly those tagged with the skill, in order |
| Home.Toggle | portfolio_blog/src/components/home-content.tsx:61 | clicking a chip clears the selection iff that chip was selected, and otherwise selects it |
| Home.ToggleTwice | portfolio_blog/src/components/home-content.tsx:61 | two clicks on one chip restore the selection iff it was empty or that chip; they clear it iff it was not that chip |
| Home.Derive | portfolio_blog/src/components/home-content.tsx:19-38 | the view is assembled from the page's derivations: the featured projects, the recent posts, the chips of the featured projects, and the featured projects and recent posts filtered by the selection; so at most three of each are shown, every shown project is a featured project of the input, every chip is in some featured project's stack, all featured projects and recent posts are shown with no selection, and with a selection exactly the featured projects using the skill and the recent posts tagged with it are shown |
| Home.ChipKeepsAProject | portfolio_blog/src/components/home-content.tsx:24-34 | selecting any chip that is offered leaves at least one featured project shown |
| Contact.Utf16Length | portfolio_blog/src/components/contact-form.tsx:23-35 | `String.length` counts UTF-16 code units: between one and two per character |
| Contact.Utf16LengthOfBmp | portfolio_blog/src/components/contact-form.tsx:25 | for text without characters outside the Basic Multilingual Plane, the measured length is the character count |
| Contact.MessageOf | portfolio_blog/src/components/contact-form.tsx:25-35 | exactly the seven checks the schema can fail have a message: a length bound on name, subject or message, or the email check |
| Contact.MessagesDistinct | portfolio_blog/src/components/contact-form.tsx:25-35 | no two issues share a message, so each message names its field and its check |
| Contact.LengthChecks | portfolio_blog/src/components/contact-form.tsx:23-26 | no issue iff min <= length <= max; a too-short issue iff length < min; a too-long issue iff length > max |
| Contact.Issues | portfolio_blog/src/components/contact-form.tsx:22-36 | no issue iff all four fields are acceptable; an issue is reported iff its check fails, and each has its fixed message |
| Contact.Resolve | portfolio_blog/src/components/contact-form.tsx:22-36 | values accepted (unchanged) iff name, email, subject and message all pass; otherwise exactly the issues of the failing checks, a non-empty list, each with its fixed message |
| Contact.DefaultsRejected | portfolio_blog/src/components/contact-form.tsx:46-51 | the all-empty defaults are rejected, with name, subject and message too short |
| Markup.LookupIsInverseOfKindName | portfolio_blog/src/lib/mdx-components.tsx:4-93 | the table is closed and unambiguous: each kind is found under its own name, and a name found names exactly that kind |
| Markup.IsInlineCode | portfolio_blog/src/lib/mdx-components.tsx:46 | code is inline when it has no class or its class does not contain `language-` |
| Markup.InlineCodeIff | portfolio_blog/src/lib/mdx-components.tsx:46 | code is inline iff it has no class or its class contains `language-` nowhere |
| Markup.Render | portfolio_blog/src/lib/mdx-components.tsx:4-93 | every rule yields an element; `hr` and `img` have no children; `pre` and `table` wrap the children in one inner element; every other kind keeps the children; all but `code` get their fixed style |
| Markup.RenderedTag | portfolio_blog/src/lib/mdx-components.tsx:80-84 | each rule renders its own element name, except the table, which is wrapped in a `div` container |
| Markup.HeadingsKeepLevel | portfolio_blog/src/lib/mdx-components.tsx:5-24 | `h1`..`h4` render as headings of the same level, and no other kind renders as a heading |
| Markup.CodeClass | portfolio_blog/src/lib/mdx-components.tsx:45-61 | inline code gets the fixed inline style; fenced code keeps the caller's class, which contains the language tag |
| Markup.CodeExamples | portfolio_blog/src/lib/mdx-components.tsx:56-58 | a `language-python` code span keeps exactly that class; a code span with no class gets the inline style |
| Markup.LinkKeepsTarget | portfolio_blog/src/lib/mdx-components.tsx:28-35 | a link renders as `a` with the given `href` and keeps its children |
| Markup.ImageKeepsSourceAndAlt | portfolio_blog/src/lib/mdx-components.tsx:73-79 | an image renders as `img` with the given `src` and `alt` and no children |

## Left out

- File-system access (`fs.readdir`, `fs.access`, `fs.readFile`, `path.join`, `process.cwd`) is left out. A directory is a value whose entries carry the parsed front matter or the read/parse error. Only ENOENT is told apart from other `readdir` errors.
- Lookups check which names exist among the entries, whatever the directory's `readdir` error. The model does not force a missing directory to have no entries.
- The lookup's `fs.access` chain treats any access error (a permission error, say) like a missing file. The model only knows whether a name exists.
- A slug containing `/` or `..` would make `path.join` reach outside the directory. The model only looks names up among the entries.
- `gray-matter` parsing is a foreign library, so the model takes the parsed record directly. A field the file leaves out is `None`. A `status` that YAML reads as `null` is a `Some` value other than `published`, so such a post is not published (`null` is not `undefined`).
- Date parsing (`new Date(...).getTime()`) and its NaN results are left out. A post's `date` is an integer timestamp, and `None` stands for an absent or empty date.
- `String.localeCompare` is locale-dependent. `LoadProjects` takes any consistent title order (`titleLeq`) instead.
- `featured` is a boolean, and a missing value reads as `false`. The source's comparator treats `undefined` and `false` as different, which is inconsistent; that case is not modelled.
- zod's email regular expression is a parameter (`isEmail`). The `react-hook-form` wiring, the `isSubmitting`/`submitSuccess` state and the simulated submission with `setTimeout` are left out: they are UI state and timers.
- The JSX class strings, animations and icons are presentation. `Markup` records which fixed style an element gets, not the style's text.
- The MDX compile pipeline that consumes the rule table is left out, and so are the remaining presentation and configuration files.
- Idempotence of the loaders is left out. Every operation here is a pure function of its inputs, so repeating a call yields the same result by construction.

=== FILE: contact.dfy ===
/** The contact form's validation schema, `contactSchema` in
    `src/components/contact-form.tsx`: four string fields, three with
    inclusive length bounds and one that must be an email address. The email
    syntax check belongs to the validation library and is a parameter here. */
module Contact {
  import opened Wrappers

  datatype Field = Name | Email | Subject | Message

  /** Which check failed. */
  datatype Problem = TooShort | TooLong | NotAnEmail

  /** One failed check: the field and the check it failed. */
  datatype Issue = Issue(field: Field, problem: Problem)

  datatype ContactValues = ContactValues(name: string, email: string, subject: string, message: string)

  const NAME_MIN: nat := 2
  const NAME_MAX: nat := 50
  const SUBJECT_MIN: nat := 5
  const SUBJECT_MAX: nat := 100
  const MESSAGE_MIN: nat := 10
  const MESSAGE_MAX: nat := 1000

  /** The fixed message shown under a field for each issue the schema can raise. */
  function MessageOf(issue: Issue): (m: Option<string>)
    ensures m.Some? <==> (issue.field == Email <==> issue.problem == NotAnEmail)
  {
    match issue
    case Issue(Name, TooShort) => Some("Name must be at least 2 characters.")
    case Issue(Name, TooLong) => Some("Name must be at most 50 characters.")
    case Issue(Email, NotAnEmail) => Some("Please enter a valid email address.")
    case Issue(Subject, TooShort) => Some("Subject must be at least 5 characters.")
    case Issue(Subject, TooLong) => Some("Subject must be at most 100 characters.")
    case Issue(Message, TooShort) => Some("Message must be at least 10 characters.")
    case Issue(Message, TooLong) => Some("Message must be at most 1000 characters.")
    case _ => None
  }

  /** No two issues share a message, so a message names its field and check. */
  lemma MessagesDistinct(a: Issue, b: Issue)
    requires MessageOf(a).Some? && MessageOf(a) == MessageOf(b)
    ensures a == b
  {
  }

  /** The form's `defaultValues`: every field empty. */
  const DEFAULTS := ContactValues("", "", "", "")

  /** JavaScript's `length`: UTF-16 code units, two for a character outside
      the Basic Multilingual Plane. */
  function Utf16Length(s: string): (n: nat)
    ensures |s| <= n <= 2 * |s|
  {
    if |s| == 0 then 0
    else (if s[0] as int >= 0x1_0000 then 2 else 1) + Utf16Length(s[1..])
  }

  /** A string with no character outside the Basic Multilingual Plane has as
      many code units as characters. */
  lemma {:induction false} Utf16LengthOfBmp(s: string)
    requires forall i :: 0 <= i < |s| ==> s[i] as int < 0x1_0000
    ensures Utf16Length(s) == |s|
  {
    if |s| > 0 {
      Utf16LengthOfBmp(s[1..]);
    }
  }

  predicate NameOk(name: string) {
    NAME_MIN <= Utf16Length(name) <= NAME_MAX
  }

  predicate SubjectOk(subject: string) {
    SUBJECT_MIN <= Utf16Length(subject) <= SUBJECT_MAX
  }

  predicate MessageOk(message: string) {
    MESSAGE_MIN <= Utf16Length(message) <= MESSAGE_MAX
  }

  /** The form is acceptable when all four fields are. */
  predicate Valid(v: ContactValues, isEmail: string -> bool) {
    NameOk(v.name) && isEmail(v.email) && SubjectOk(v.subject) && MessageOk(v.message)
  }

  /** `z.string().min(lo, tooShort).max(hi, tooLong)` on one field: each
      failing check contributes its own issue. */
  function LengthChecks(field: Field, s: string, lo: nat, hi: nat): (r: seq<Issue>)
    requires lo <= hi
    ensures r == [] <==> lo <= Utf16Length(s) <= hi
    ensures Issue(field, TooShort) in r <==> Utf16Length(s) < lo
    ensures Issue(field, TooLong) in r <==> Utf16Length(s) > hi
    ensures forall issue :: issue in r <==>
      issue.field == field &&
      ((issue.problem == TooShort && Utf16Length(s) < lo) || (issue.problem == TooLong && Utf16Length(s) > hi))
  {
    (if Utf16Length(s) < lo then [Issue(field, TooShort)] else [])
    + (if Utf16Length(s) > hi then [Issue(field, TooLong)] else [])
  }

  /** The check behind `issue` rejects `v`. */
  predicate Fails(v: ContactValues, isEmail: string -> bool, issue: Issue) {
    match issue
    case Issue(Name, TooShort) => Utf16Length(v.name) < NAME_MIN
    case Issue(Name, TooLong) => Utf16Length(v.name) > NAME_MAX
    case Issue(Email, NotAnEmail) => !isEmail(v.email)
    case Issue(Subject, TooShort) => Utf16Length(v.subject) < SUBJECT_MIN
    case Issue(Subject, TooLong) => Utf16Length(v.subject) > SUBJECT_MAX
    case Issue(Message, TooShort) => Utf16Length(v.message) < MESSAGE_MIN
    case Issue(Message, TooLong) => Utf16Length(v.message) > MESSAGE_MAX
    case _ => false
  }

  /** Every issue the schema reports for `v`, in field order. */
  function Issues(v: ContactValues, isEmail: string -> bool): (issues: seq<Issue>)
    ensures issues == [] <==> Valid(v, isEmail)
    ensures forall issue :: issue in issues <==> Fails(v, isEmail, issue)
    ensures forall i :: 0 <= i < |issues| ==> MessageOf(issues[i]).Some?
  {
    var name := LengthChecks(Name, v.name, NAME_MIN, NAME_MAX);
    var email := if isEmail(v.email) then [] else [Issue(Email, NotAnEmail)];
    var subject := LengthChecks(Subject, v.subject, SUBJECT_MIN, SUBJECT_MAX);
    var message := LengthChecks(Message, v.message, MESSAGE_MIN, MESSAGE_MAX);
    IssuesFound(v, isEmail, name, email, subject, message);
    name + email + subject + message
  }

  /** The four fields' issues together are exactly the failing checks, each
      with a message to show. */
  lemma IssuesFound(v: ContactValues, isEmail: string -> bool,
                    name: seq<Issue>, email: seq<Issue>, subject: seq<Issue>, message: seq<Issue>)
    requires name == LengthChecks(Name, v.name, NAME_MIN, NAME_MAX)
    requires email == if isEmail(v.email) then [] else [Issue(Email, NotAnEmail)]
    requires subject == LengthChecks(Subject, v.subject, SUBJECT_MIN, SUBJECT_MAX)
    requires message == LengthChecks(Message, v.message, MESSAGE_MIN, MESSAGE_MAX)
    ensures name + email + subject + message == [] <==> Valid(v, isEmail)
    ensures forall issue :: issue in name + email + subject + message <==> Fails(v, isEmail, issue)
    ensures forall issue :: issue in name + email + subject + message ==> MessageOf(issue).Some?
  {
    forall issue
      ensures issue in name + email + subject + message <==> Fails(v, isEmail, issue)
    {
      InConcat(name, email, subject, message, issue);
      match issue.field
      case Name =>
        assert issue !in email && issue !in subject && issue !in message;
      case Email =>
        assert issue !in name && issue !in subject && issue !in message;
      case Subject =>
        assert issue !in name && issue !in email && issue !in message;
      case Message =>
        assert issue !in name && issue !in email && issue !in subject;
    }
  }

  lemma InConcat<T>(a: seq<T>, b: seq<T>, c: seq<T>, d: seq<T>, x: T)
    ensures x in a + b + c + d <==> x in a || x in b || x in c || x in d
  {
  }

  /** The resolver's verdict: the values themselves, or the issues found. */
  function Resolve(v: ContactValues, isEmail: string -> bool): (r: Result<ContactValues, seq<Issue>>)
    ensures r.Success? <==> Valid(v, isEmail)
    ensures r.Success? ==> r.value == v
    ensures r.Failure? ==> |r.error| > 0 && r.error == Issues(v, isEmail)
  {
    var issues := Issues(v, isEmail);
    if issues == [] then Success(v) else Failure(issues)
  }

  /** The untouched form never submits: name, subject and message are all too
      short, whatever the email check says about the empty string. */
  lemma DefaultsRejected(isEmail: string -> bool)
    ensures Resolve(DEFAULTS, isEmail).Failure?
    ensures Issue(Name, TooShort) in Resolve(DEFAULTS, isEmail).error
    ensures Issue(Subject, TooShort) in Resolve(DEFAULTS, isEmail).error
    ensures Issue(Message, TooShort) in Resolve(DEFAULTS, isEmail).error
  {
  }
}

=== FILE: content.dfy ===
/** The content repository of `src/lib/content.ts`: listing and single-item
    lookup over the posts and the projects directories.

    File-system calls are replaced by a `Directory` value: the entries the
    directory holds, in the order `readdir` returns them, each with the front
    matter the parser produced for it, or the error that reading or parsing it
    raised. */
module Content {
  import opened Wrappers
  import opened Seqs
  import opened Sorting

  /** The `code` of the error `readdir` raises for a directory that does not exist. */
  const ENOENT: string := "ENOENT"

  /** Front matter of a post. A field the file leaves out is `None`; `date` is
      the parsed timestamp in milliseconds, `None` when absent or empty. */
  datatype PostFrontmatter = PostFrontmatter(
    title: Option<string>,
    date: Option<int>,
    summary: Option<string>,
    tags: Option<seq<string>>,
    status: Option<string>,
    slug: Option<string>)

  /** A post as the repository hands it out: its front matter plus the slug. */
  datatype PostMeta = PostMeta(
    slug: string,
    title: Option<string>,
    date: Option<int>,
    summary: Option<string>,
    tags: Option<seq<string>>,
    status: Option<string>)

  /** A project link; `text` is the source's `label` (a reserved word here). */
  datatype ProjectLink = ProjectLink(text: string, href: string)

  /** Front matter of a project; a missing `featured` reads as `false`. */
  datatype ProjectFrontmatter = ProjectFrontmatter(
    title: Option<string>,
    summary: Option<string>,
    role: Option<string>,
    stack: Option<seq<string>>,
    links: Option<seq<ProjectLink>>,
    featured: bool,
    status: Option<string>,
    slug: Option<string>)

  datatype ProjectMeta = ProjectMeta(
    slug: string,
    title: Option<string>,
    summary: Option<string>,
    role: Option<string>,
    stack: Option<seq<string>>,
    links: Option<seq<ProjectLink>>,
    featured: bool,
    status: Option<string>)

  /** One file: its name and what reading and parsing it yields. */
  datatype Entry<F> = Entry(name: string, content: Result<F, string>)

  /** A content directory: its files, and the error code `readdir` fails
      with, if it fails. */
  datatype Directory<F> = Directory(entries: seq<Entry<F>>, readdirFault: Option<string>)

  // ---------------------------------------------------------------------------
  // Gates

  /** A post is visible when its status is `"published"` or not given. */
  predicate IsPublished(status: Option<string>) {
    status == None || status == Some("published")
  }

  /** JavaScript truthiness of an optional string field: present and non-empty. */
  predicate Truthy(field: Option<string>) {
    field.Some? && field.value != ""
  }

  /** The listing gate for posts: title, date and summary given, and published. */
  predicate PostAdmitted(fm: PostFrontmatter) {
    Truthy(fm.title) && fm.date.Some? && Truthy(fm.summary) && IsPublished(fm.status)
  }

  /** The listing gate for projects: title, summary and role given; no status check. */
  predicate ProjectAdmitted(fm: ProjectFrontmatter) {
    Truthy(fm.title) && Truthy(fm.summary) && Truthy(fm.role)
  }

  /** A draft is never published, whatever else its front matter says. */
  lemma DraftIsNotPublished(fm: PostFrontmatter)
    requires fm.status == Some("draft")
    ensures !IsPublished(fm.status) && !PostAdmitted(fm)
  {
  }

  // ---------------------------------------------------------------------------
  // Listing the directory

  /** The names `readdir` results are filtered to (case-sensitive). */
  predicate IsContentFile(name: string) {
    EndsWith(name, ".md") || EndsWith(name, ".mdx")
  }

  predicate IsContentEntry<F>(e: Entry<F>) {
    IsContentFile(e.name)
  }

  /** `listFiles`: the `.md`/`.mdx` entries in directory order; a missing
      directory lists nothing, any other `readdir` error propagates. */
  function ListFiles<F>(dir: Directory<F>): (r: Result<seq<Entry<F>>, string>)
    ensures r.Failure? <==> dir.readdirFault.Some? && dir.readdirFault.value != ENOENT
    ensures r.Failure? ==> dir.readdirFault == Some(r.error)
    ensures dir.readdirFault == Some(ENOENT) ==> r == Success([])
    ensures r.Success? && dir.readdirFault.None? ==>
      && (forall i :: 0 <= i < |r.value| ==> r.value[i] in dir.entries && IsContentFile(r.value[i].name))
      && (forall i :: 0 <= i < |dir.entries| && IsContentFile(dir.entries[i].name) ==> dir.entries[i] in r.value)
  {
    match dir.readdirFault
    case Some(code) => if code == ENOENT then Success([]) else Failure(code)
    case None => Success(Filter(IsContentEntry, dir.entries))
  }

  /** Which names are listed: exactly those spelled as something followed by
      `.md` or by `.mdx`, in exactly that case. */
  lemma ContentFileIff(name: string)
    ensures IsContentFile(name) <==>
      (exists front :: name == front + ".md") || (exists front :: name == front + ".mdx")
  {
    EndsWithIff(name, ".md");
    EndsWithIff(name, ".mdx");
  }

  /** Listing a directory whose entries are `a` followed by `b` lists the
      entries of `a`, then those of `b`: with `ListFilesOne`, the listing keeps
      the `readdir` order. */
  lemma ListFilesAppend<F>(a: seq<Entry<F>>, b: seq<Entry<F>>)
    ensures ListFiles(Directory(a + b, None)).value
         == ListFiles(Directory(a, None)).value + ListFiles(Directory(b, None)).value
  {
    FilterAppend(IsContentEntry, a, b);
  }

  /** A single entry is listed exactly when its name ends in `.md` or `.mdx`. */
  lemma ListFilesOne<F>(e: Entry<F>)
    ensures ListFiles(Directory([e], None)) == Success(if IsContentFile(e.name) then [e] else [])
  {
    FilterOne(IsContentEntry, e);
  }

  /** A listed entry occurs in the listing as often as in the directory. */
  lemma ListFilesCount<F>(dir: Directory<F>, e: Entry<F>)
    requires dir.readdirFault.None?
    ensures multiset(ListFiles(dir).value)[e] == if IsContentFile(e.name) then multiset(dir.entries)[e] else 0
  {
    FilterCount(IsContentEntry, dir.entries, e);
  }

  // ---------------------------------------------------------------------------
  // Slugs

  function LowerAscii(c: char): char {
    if 'A' <= c <= 'Z' then (c as int - 'A' as int + 'a' as int) as char else c
  }

  /** Character-wise comparison, ignoring ASCII case (the regular expression's `i` flag). */
  predicate MatchesIgnoringCase(s: string, pattern: string) {
    |s| == |pattern| && forall i :: 0 <= i < |s| ==> LowerAscii(s[i]) == LowerAscii(pattern[i])
  }

  /** `.md` or `.mdx` in any letter case: the group `\.(md|mdx)` under the `i` flag. */
  predicate IsContentExtension(ext: string) {
    MatchesIgnoringCase(ext, ".mdx") || MatchesIgnoringCase(ext, ".md")
  }

  /** `file.replace(/\.(md|mdx)$/i, "")`: drops one trailing `.md` or `.mdx`,
      in any letter case; other names are returned unchanged. */
  function Slug(name: string): (slug: string)
    ensures slug <= name
    ensures slug == name || IsContentExtension(name[|slug|..])
    ensures slug == name ==> forall k :: 0 <= k <= |name| ==> !IsContentExtension(name[k..])
  {
    if |name| >= 4 && MatchesIgnoringCase(name[|name| - 4..], ".mdx") then name[..|name| - 4]
    else if |name| >= 3 && MatchesIgnoringCase(name[|name| - 3..], ".md") then name[..|name| - 3]
    else
      NoContentExtension(name);
      name
  }

  /** A name that does not end in `.md` or `.mdx`, in any letter case, has no
      suffix that is a content extension. */
  lemma NoContentExtension(name: string)
    requires !(|name| >= 4 && MatchesIgnoringCase(name[|name| - 4..], ".mdx"))
    requires !(|name| >= 3 && MatchesIgnoringCase(name[|name| - 3..], ".md"))
    ensures forall k :: 0 <= k <= |name| ==> !IsContentExtension(name[k..])
  {
    forall k | 0 <= k <= |name|
      ensures !IsContentExtension(name[k..])
    {
      if k == |name| - 4 {
        assert !MatchesIgnoringCase(name[|name| - 4..], ".mdx");
      } else if k == |name| - 3 {
        assert !MatchesIgnoringCase(name[|name| - 3..], ".md");
      }
    }
  }

  /** Round trip: appending a content extension and deriving the slug gives
      back the base name. */
  lemma {:induction false} SlugStripsExtension(base: string, ext: string)
    requires IsContentExtension(ext)
    ensures Slug(base + ext) == base
  {
    var name := base + ext;
    if |ext| == 3 {
      if |name| >= 4 {
        assert !MatchesIgnoringCase(name[|name| - 4..], ".mdx") by {
          assert name[|name| - 1] == ext[2];
        }
      }
      assert name[|name| - 3..] == ext;
      assert name[..|name| - 3] == base;
    } else {
      assert name[|name| - 4..] == ext;
      assert name[..|name| - 4] == base;
    }
  }

  /** The slug of the file name used in the single-post example below. */
  lemma HelloSlug()
    ensures Slug("hello.md") == "hello"
  {
    var name := "hello" + ".md";
    SlugStripsExtension("hello", ".md");
    assert name == "hello.md";
  }

  /** The slugs of the file names used in the colliding-slugs example below. */
  lemma SlugsOfA()
    ensures Slug("a.md") == "a" && Slug("a.mdx") == "a"
  {
    var md, mdx := "a" + ".md", "a" + ".mdx";
    SlugStripsExtension("a", ".md");
    SlugStripsExtension("a", ".mdx");
    assert md == "a.md";
    assert mdx == "a.mdx";
  }

  // ---------------------------------------------------------------------------
  // Records

  /** `{ ...frontmatter, slug }`: the derived slug overrides a `slug` key. */
  function ToPostMeta(slug: string, fm: PostFrontmatter): (p: PostMeta)
    ensures p.slug == slug
    ensures p.title == fm.title && p.date == fm.date && p.summary == fm.summary
    ensures p.tags == fm.tags && p.status == fm.status
  {
    PostMeta(slug, fm.title, fm.date, fm.summary, fm.tags, fm.status)
  }

  function ToProjectMeta(slug: string, fm: ProjectFrontmatter): (p: ProjectMeta)
    ensures p.slug == slug
    ensures p.title == fm.title && p.summary == fm.summary && p.role == fm.role
    ensures p.stack == fm.stack && p.links == fm.links
    ensures p.featured == fm.featured && p.status == fm.status
  {
    ProjectMeta(slug, fm.title, fm.summary, fm.role, fm.stack, fm.links, fm.featured, fm.status)
  }

  // ---------------------------------------------------------------------------
  // Collecting the listed files

  /** The file was read and parsed, and its front matter passes `admit`. */
  predicate Kept<F>(e: Entry<F>, admit: F -> bool) {
    e.content.Success? && admit(e.content.value)
  }

  /** The record a kept file contributes to a listing. */
  function RecordOf<F, M>(e: Entry<F>, meta: (string, F) -> M): M
    requires e.content.Success?
  {
    meta(Slug(e.name), e.content.value)
  }

  /** Reference: the records of the kept files, in file order. */
  ghost function Retained<F, M>(files: seq<Entry<F>>, admit: F -> bool, meta: (string, F) -> M): seq<M> {
    if |files| == 0 then []
    else if Kept(files[0], admit) then [RecordOf(files[0], meta)] + Retained(files[1..], admit, meta)
    else Retained(files[1..], admit, meta)
  }

  /** A record is retained exactly when some kept file produces it. */
  lemma {:induction false} RetainedMembers<F, M>(files: seq<Entry<F>>, admit: F -> bool, meta: (string, F) -> M, m: M)
    ensures m in Retained(files, admit, meta) <==>
            exists i :: 0 <= i < |files| && Kept(files[i], admit) && m == RecordOf(files[i], meta)
    decreases |files|
  {
    if |files| > 0 {
      RetainedMembers(files[1..], admit, meta, m);
      if exists i :: 0 <= i < |files| && Kept(files[i], admit) && m == RecordOf(files[i], meta) {
        var i :| 0 <= i < |files| && Kept(files[i], admit) && m == RecordOf(files[i], meta);
        if i > 0 {
          assert files[1..][i - 1] == files[i];
        }
      }
      if exists i :: 0 <= i < |files| - 1 && Kept(files[1..][i], admit) && m == RecordOf(files[1..][i], meta) {
        var i :| 0 <= i < |files| - 1 && Kept(files[1..][i], admit) && m == RecordOf(files[1..][i], meta);
        assert files[i + 1] == files[1..][i];
      }
    }
  }

  /** The number of kept files. */
  ghost function KeptCount<F>(files: seq<Entry<F>>, admit: F -> bool): nat {
    if |files| == 0 then 0
    else (if Kept(files[0], admit) then 1 else 0) + KeptCount(files[1..], admit)
  }

  /** Every file was read and parsed. */
  ghost predicate AllRead<F>(files: seq<Entry<F>>) {
    forall i :: 0 <= i < |files| ==> files[i].content.Success?
  }

  /** `err` is the error of the first file that could not be read or parsed. */
  ghost predicate FirstFault<F>(files: seq<Entry<F>>, err: string) {
    exists i :: 0 <= i < |files| && files[i].content == Failure(err) && AllRead(files[..i])
  }

  /** Past a readable first file, both notions look at the rest of the files. */
  lemma ReadPastFirst<F>(files: seq<Entry<F>>, err: string)
    requires |files| > 0 && files[0].content.Success?
    ensures AllRead(files) <==> AllRead(files[1..])
    ensures FirstFault(files[1..], err) ==> FirstFault(files, err)
  {
    if AllRead(files[1..]) {
      forall i | 0 < i < |files|
        ensures files[i].content.Success?
      {
        assert files[i] == files[1..][i - 1];
      }
    }
    if FirstFault(files[1..], err) {
      var k :| 0 <= k < |files| - 1 && files[1..][k].content == Failure(err) && AllRead(files[1..][..k]);
      var before := files[..k + 1];
      assert before == [files[0]] + files[1..][..k];
      forall j | 0 <= j < |before|
        ensures before[j].content.Success?
      {
        if j > 0 {
          assert before[j] == files[1..][..k][j - 1];
        }
      }
      assert files[k + 1].content == Failure(err);
    }
  }

  /** The loop of `loadPosts`/`loadProjects`: visits the files in order; a
      file that cannot be read or parsed aborts the whole listing with its
      error; a file that fails `admit` is skipped; every other file adds its
      record, under the slug derived from its name. */
  function Collect<F, M>(files: seq<Entry<F>>, admit: F -> bool, meta: (string, F) -> M): (r: Result<seq<M>, string>)
    ensures r.Success? <==> AllRead(files)
    ensures r.Failure? ==> FirstFault(files, r.error)
    ensures r.Success? ==> r.value == Retained(files, admit, meta) && |r.value| == KeptCount(files, admit)
    decreases |files|
  {
    if |files| == 0 then Success([])
    else
      match files[0].content
      case Failure(err) =>
        assert files[..0] == [];
        Failure(err)
      case Success(fm) =>
        var rest := Collect(files[1..], admit, meta);
        ReadPastFirst(files, if rest.Failure? then rest.error else "");
        if rest.Failure? then Failure(rest.error)
        else if admit(fm) then Success([meta(Slug(files[0].name), fm)] + rest.value)
        else Success(rest.value)
  }

  // ---------------------------------------------------------------------------
  // Posts

  /** Sort key of a post: its timestamp. Only dated posts reach the sort. */
  function Timestamp(p: PostMeta): int {
    match p.date
    case Some(t) => t
    case None => 0
  }

  /** The comparator `(a, b) => date(b) - date(a)`, as "a may come before b". */
  predicate NewerOrSame(a: PostMeta, b: PostMeta) {
    Timestamp(a) >= Timestamp(b)
  }

  lemma NewerOrSameIsTotalPreorder()
    ensures TotalPreorder(NewerOrSame)
  {
  }

  /** `loadPosts`: every readable, admitted post of the listing, newest first. */
  function LoadPosts(dir: Directory<PostFrontmatter>): (r: Result<seq<PostMeta>, string>)
    ensures r.Failure? <==>
      ListFiles(dir).Failure? ||
      exists i :: 0 <= i < |ListFiles(dir).value| && ListFiles(dir).value[i].content.Failure?
    ensures r.Failure? ==>
      if ListFiles(dir).Failure? then r.error == ListFiles(dir).error
      else FirstFault(ListFiles(dir).value, r.error)
    ensures r.Success? ==>
      multiset(r.value) == multiset(Retained(ListFiles(dir).value, PostAdmitted, ToPostMeta))
    ensures r.Success? ==> forall i, j :: 0 <= i < j < |r.value| ==> Timestamp(r.value[i]) >= Timestamp(r.value[j])
  {
    var files :- ListFiles(dir);
    var posts :- Collect(files, PostAdmitted, ToPostMeta);
    NewerOrSameIsTotalPreorder();
    Success(InsertionSort(posts, NewerOrSame))
  }

  /** A post is listed exactly when some listed file is readable, admitted
      and yields it; in particular every listed post is published and has a
      title, a date and a summary, and its slug comes from its file name. */
  lemma PostListingMembers(dir: Directory<PostFrontmatter>, p: PostMeta)
    requires LoadPosts(dir).Success?
    ensures p in LoadPosts(dir).value <==>
      exists i :: 0 <= i < |ListFiles(dir).value| && Kept(ListFiles(dir).value[i], PostAdmitted)
                  && p == ToPostMeta(Slug(ListFiles(dir).value[i].name), ListFiles(dir).value[i].content.value)
    ensures p in LoadPosts(dir).value ==>
      IsPublished(p.status) && Truthy(p.title) && p.date.Some? && Truthy(p.summary)
  {
    var files := ListFiles(dir).value;
    RetainedMembers(files, PostAdmitted, ToPostMeta, p);
    assert p in LoadPosts(dir).value <==> p in multiset(Retained(files, PostAdmitted, ToPostMeta));
  }

  /** Every admitted file appears in the listing as often as it is listed,
      and the listing holds exactly as many posts as there are admitted files. */
  lemma PostListingCount(dir: Directory<PostFrontmatter>)
    requires LoadPosts(dir).Success?
    ensures |LoadPosts(dir).value| == KeptCount(ListFiles(dir).value, PostAdmitted)
  {
    var files := ListFiles(dir).value;
    assert |multiset(LoadPosts(dir).value)| == |multiset(Retained(files, PostAdmitted, ToPostMeta))|;
  }

  /** Newest first: a strictly newer post comes strictly earlier. */
  lemma PostsNewestFirst(dir: Directory<PostFrontmatter>, i: nat, j: nat)
    requires LoadPosts(dir).Success?
    requires i < |LoadPosts(dir).value| && j < |LoadPosts(dir).value|
    requires Timestamp(LoadPosts(dir).value[i]) > Timestamp(LoadPosts(dir).value[j])
    ensures i < j
  {
  }

  /** Posts with the same date keep the order in which `readdir` listed their files. */
  lemma PostTiesKeepDirectoryOrder(dir: Directory<PostFrontmatter>, t: int)
    requires LoadPosts(dir).Success?
    ensures Filter(EquivalentTo(NewerOrSame, PostOnDate(t)), LoadPosts(dir).value)
         == Filter(EquivalentTo(NewerOrSame, PostOnDate(t)), Retained(ListFiles(dir).value, PostAdmitted, ToPostMeta))
  {
    NewerOrSameIsTotalPreorder();
    var posts := Collect(ListFiles(dir).value, PostAdmitted, ToPostMeta).value;
    SortStable(posts, NewerOrSame, PostOnDate(t));
  }

  /** A representative post of date `t`, naming the class of posts dated `t`. */
  function PostOnDate(t: int): PostMeta {
    PostMeta("", None, Some(t), None, None, None)
  }

  /** A file `hello.md` with title, date and summary and no status is
      listed, as a published post with slug `hello`. */
  lemma HelloPostListed(t: int)
    ensures LoadPosts(Directory([Entry("hello.md", Success(PostFrontmatter(Some("Hello"), Some(t), Some("World"), None, None, None)))], None))
         == Success([PostMeta("hello", Some("Hello"), Some(t), Some("World"), None, None)])
  {
    var fm := PostFrontmatter(Some("Hello"), Some(t), Some("World"), None, None, None);
    var e := Entry("hello.md", Success(fm));
    var dir := Directory([e], None);
    ListsHello(e);
    var p := CollectsHello(fm, e);
    NewerOrSameIsTotalPreorder();
    SortOne(p, NewerOrSame);
    assert LoadPosts(dir) == Success(InsertionSort([p], NewerOrSame));
  }

  lemma ListsHello<F>(e: Entry<F>)
    requires e.name == "hello.md"
    ensures ListFiles(Directory([e], None)) == Success([e])
  {
    assert IsContentEntry(e) by {
      assert "hello.md"[|"hello.md"| - |".md"|..] == ".md";
    }
    FilterOne(IsContentEntry, e);
  }

  lemma CollectsHello(fm: PostFrontmatter, e: Entry<PostFrontmatter>) returns (p: PostMeta)
    requires fm == PostFrontmatter(fm.title, fm.date, fm.summary, None, None, None)
    requires fm.title == Some("Hello") && fm.date.Some? && fm.summary == Some("World")
    requires e == Entry("hello.md", Success(fm))
    ensures p == PostMeta("hello", Some("Hello"), fm.date, Some("World"), None, None)
    ensures Collect([e], PostAdmitted, ToPostMeta) == Success([p])
  {
    HelloSlug();
    assert PostAdmitted(fm) by {
      assert "Hello" != "" && "World" != "";
    }
    p := ToPostMeta("hello", fm);
    CollectSingle(e, PostAdmitted, ToPostMeta);
  }

  /** Both spellings of the content extension are listed. */
  lemma ListsBothExtensions<F>(md: Entry<F>, mdx: Entry<F>)
    requires md.name == "a.md" && mdx.name == "a.mdx"
    ensures ListFiles(Directory([md, mdx], None)) == Success([md, mdx])
  {
    assert IsContentEntry(md) by {
      assert "a.md"[|"a.md"| - |".md"|..] == ".md";
    }
    assert IsContentEntry(mdx) by {
      assert "a.mdx"[|"a.mdx"| - |".mdx"|..] == ".mdx";
    }
    FilterAppend(IsContentEntry, [md], [mdx]);
    FilterOne(IsContentEntry, md);
    FilterOne(IsContentEntry, mdx);
    assert [md] + [mdx] == [md, mdx];
  }

  /** `Collect` on two admitted files. */
  lemma CollectTwo<F, M>(a: Entry<F>, b: Entry<F>, admit: F -> bool, meta: (string, F) -> M)
    requires a.content.Success? && admit(a.content.value)
    requires b.content.Success? && admit(b.content.value)
    ensures Collect([a, b], admit, meta)
         == Success([meta(Slug(a.name), a.content.value), meta(Slug(b.name), b.content.value)])
  {
    var pa, pb := meta(Slug(a.name), a.content.value), meta(Slug(b.name), b.content.value);
    CollectSingle(b, admit, meta);
    assert [a, b][1..] == [b];
    assert [pa] + [pb] == [pa, pb];
  }

  /** `Collect` on one admitted file. */
  lemma CollectSingle<F, M>(e: Entry<F>, admit: F -> bool, meta: (string, F) -> M)
    requires e.content.Success? && admit(e.content.value)
    ensures Collect([e], admit, meta) == Success([meta(Slug(e.name), e.content.value)])
  {
    var m := meta(Slug(e.name), e.content.value);
    assert [e][1..] == [];
    assert Collect([], admit, meta) == Success([]);
    assert [m] + [] == [m];
  }

  /** Both files of the pair are admitted under the slug `a`. */
  lemma CollectsBothUnderOneSlug(fm: PostFrontmatter, md: Entry<PostFrontmatter>, mdx: Entry<PostFrontmatter>)
    requires PostAdmitted(fm) && md == Entry("a.md", Success(fm)) && mdx == Entry("a.mdx", Success(fm))
    ensures Collect([md, mdx], PostAdmitted, ToPostMeta) == Success([ToPostMeta("a", fm), ToPostMeta("a", fm)])
  {
    SlugsOfA();
    CollectTwo(md, mdx, PostAdmitted, ToPostMeta);
  }

  /** Slugs need not be unique within a listing: `a.md` and `a.mdx` are both
      listed, under the same slug. */
  lemma SlugsCanCollide(fm: PostFrontmatter)
    requires PostAdmitted(fm)
    ensures var posts := LoadPosts(Directory([Entry("a.md", Success(fm)), Entry("a.mdx", Success(fm))], None));
      posts.Success? && |posts.value| == 2 && posts.value[0].slug == "a" && posts.value[1].slug == "a"
  {
    var md, mdx := Entry("a.md", Success(fm)), Entry("a.mdx", Success(fm));
    var dir := Directory([md, mdx], None);
    ListsBothExtensions(md, mdx);
    CollectsBothUnderOneSlug(fm, md, mdx);
    var p := ToPostMeta("a", fm);
    NewerOrSameIsTotalPreorder();
    var sorted := InsertionSort([p, p], NewerOrSame);
    assert LoadPosts(dir) == Success(sorted);
    assert multiset(sorted) == multiset{p, p};
    assert sorted[0] in multiset(sorted) && sorted[1] in multiset(sorted);
  }

  /** Where `loadPost` looks: `<slug>.md` if it exists, else `<slug>.mdx`. */
  function FindEntry<F>(entries: seq<Entry<F>>, name: string): (r: Option<Entry<F>>)
    ensures r.Some? ==> r.value in entries && r.value.name == name
    ensures r.None? <==> forall i :: 0 <= i < |entries| ==> entries[i].name != name
  {
    if |entries| == 0 then None
    else if entries[0].name == name then Some(entries[0])
    else FindEntry(entries[1..], name)
  }

  predicate HasFile<F>(dir: Directory<F>, name: string) {
    exists i :: 0 <= i < |dir.entries| && dir.entries[i].name == name
  }

  /** The `fs.access` chain: `.md` is preferred, `.mdx` is the fallback. */
  function Resolve<F>(dir: Directory<F>, slug: string): (r: Option<Entry<F>>)
    ensures r.None? <==> !HasFile(dir, slug + ".md") && !HasFile(dir, slug + ".mdx")
    ensures r.Some? ==> r.value in dir.entries
    ensures r.Some? && HasFile(dir, slug + ".md") ==> r.value.name == slug + ".md"
    ensures r.Some? && !HasFile(dir, slug + ".md") ==> r.value.name == slug + ".mdx"
  {
    var md := FindEntry(dir.entries, slug + ".md");
    if md.Some? then md else FindEntry(dir.entries, slug + ".mdx")
  }

  /** `loadPost`: the resolved file's post if it is published, `None` if no
      file exists or it is not published. No required-field check is made,
      and an unreadable or unparsable file rejects. */
  function LoadPost(dir: Directory<PostFrontmatter>, slug: string): (r: Result<Option<PostMeta>, string>)
    ensures Resolve(dir, slug).None? ==> r == Success(None)
    ensures r.Failure? <==> Resolve(dir, slug).Some? && Resolve(dir, slug).value.content.Failure?
    ensures r.Failure? ==> r.error == Resolve(dir, slug).value.content.error
    ensures r.Success? && r.value.Some? <==>
      Resolve(dir, slug).Some? && Resolve(dir, slug).value.content.Success?
      && IsPublished(Resolve(dir, slug).value.content.value.status)
    ensures r.Success? && r.value.Some? ==>
      r.value.value == ToPostMeta(slug, Resolve(dir, slug).value.content.value)
  {
    match Resolve(dir, slug)
    case None => Success(None)
    case Some(e) =>
      match e.content
      case Failure(err) => Failure(err)
      case Success(fm) => if IsPublished(fm.status) then Success(Some(ToPostMeta(slug, fm))) else Success(None)
  }

  /** A draft resolved by `loadPost` is reported missing, and no draft is ever listed. */
  lemma DraftPostHidden(dir: Directory<PostFrontmatter>, slug: string)
    requires Resolve(dir, slug).Some? && Resolve(dir, slug).value.content.Success?
    requires Resolve(dir, slug).value.content.value.status == Some("draft")
    ensures LoadPost(dir, slug) == Success(None)
    ensures LoadPosts(dir).Success? ==>
      forall p :: p in LoadPosts(dir).value ==> p.status != Some("draft")
  {
    if LoadPosts(dir).Success? {
      forall p | p in LoadPosts(dir).value
        ensures p.status != Some("draft")
      {
        PostListingMembers(dir, p);
      }
    }
  }

  /** `Collect` on one readable file that `admit` turns away. */
  lemma CollectSkipped<F, M>(e: Entry<F>, admit: F -> bool, meta: (string, F) -> M)
    requires e.content.Success? && !admit(e.content.value)
    ensures Collect([e], admit, meta) == Success([])
  {
    assert [e][1..] == [];
  }

  /** The lookup applies no required-field check but the listing does: a
      published `hello.md` without a title is found by slug, yet not listed. */
  lemma UntitledPostFoundButNotListed(fm: PostFrontmatter)
    requires fm.title == None && IsPublished(fm.status)
    ensures var dir := Directory([Entry("hello.md", Success(fm))], None);
      LoadPost(dir, "hello") == Success(Some(ToPostMeta("hello", fm))) && LoadPosts(dir) == Success([])
  {
    var e := Entry("hello.md", Success(fm));
    var dir := Directory([e], None);
    assert "hello" + ".md" == "hello.md";
    assert dir.entries[0].name == "hello" + ".md";
    assert HasFile(dir, "hello" + ".md");
    ListsHello(e);
    CollectSkipped(e, PostAdmitted, ToPostMeta);
    NewerOrSameIsTotalPreorder();
    assert LoadPosts(dir) == Success(InsertionSort([], NewerOrSame));
  }

  // ---------------------------------------------------------------------------
  // Projects

  /** Sort key of a project's title. Only titled projects reach the sort. */
  function TitleKey(p: ProjectMeta): string {
    match p.title
    case Some(t) => t
    case None => ""
  }

  /** The comparator of `loadProjects` as "a may come before b": featured
      first; among equal `featured`, by title under `titleLeq`. */
  predicate ProjectPrecedes(titleLeq: (string, string) -> bool, a: ProjectMeta, b: ProjectMeta) {
    if a.featured == b.featured then titleLeq(TitleKey(a), TitleKey(b)) else a.featured
  }

  function ProjectOrder(titleLeq: (string, string) -> bool): (ProjectMeta, ProjectMeta) -> bool {
    (a, b) => ProjectPrecedes(titleLeq, a, b)
  }

  /** A consistent title order makes the project comparator consistent. */
  lemma ProjectOrderIsTotalPreorder(titleLeq: (string, string) -> bool)
    requires TotalPreorder(titleLeq)
    ensures TotalPreorder(ProjectOrder(titleLeq))
  {
    var leq := ProjectOrder(titleLeq);
    forall a, b, c | leq(a, b) && leq(b, c)
      ensures leq(a, c)
    {
      if a.featured == b.featured && b.featured == c.featured {
        assert titleLeq(TitleKey(a), TitleKey(b)) && titleLeq(TitleKey(b), TitleKey(c));
      }
    }
  }

  /** `loadProjects`: every readable project with title, summary and role,
      featured ones first, then by title. Status is never consulted. */
  function LoadProjects(dir: Directory<ProjectFrontmatter>, titleLeq: (string, string) -> bool): (r: Result<seq<ProjectMeta>, string>)
    requires TotalPreorder(titleLeq)
    ensures r.Failure? <==>
      ListFiles(dir).Failure? ||
      exists i :: 0 <= i < |ListFiles(dir).value| && ListFiles(dir).value[i].content.Failure?
    ensures r.Failure? ==>
      if ListFiles(dir).Failure? then r.error == ListFiles(dir).error
      else FirstFault(ListFiles(dir).value, r.error)
    ensures r.Success? ==>
      multiset(r.value) == multiset(Retained(ListFiles(dir).value, ProjectAdmitted, ToProjectMeta))
    ensures r.Success? ==> forall i, j :: 0 <= i < |r.value| && 0 <= j < |r.value| && r.value[i].featured && !r.value[j].featured ==> i < j
    ensures r.Success? ==> forall i, j :: 0 <= i < j < |r.value| && r.value[i].featured == r.value[j].featured ==>
      titleLeq(TitleKey(r.value[i]), TitleKey(r.value[j]))
  {
    var files :- ListFiles(dir);
    var projects :- Collect(files, ProjectAdmitted, ToProjectMeta);
    ProjectOrderIsTotalPreorder(titleLeq);
    var sorted := InsertionSort(projects, ProjectOrder(titleLeq));
    FeaturedFirst(titleLeq, sorted);
    Success(sorted)
  }

  /** What a list sorted by the project comparator looks like: every featured
      project ahead of every other one, and titles in order within each group. */
  lemma FeaturedFirst(titleLeq: (string, string) -> bool, sorted: seq<ProjectMeta>)
    requires TotalPreorder(titleLeq) && SortedBy(sorted, ProjectOrder(titleLeq))
    ensures forall i, j :: 0 <= i < |sorted| && 0 <= j < |sorted| && sorted[i].featured && !sorted[j].featured ==> i < j
    ensures forall i, j :: 0 <= i < j < |sorted| && sorted[i].featured == sorted[j].featured ==>
      titleLeq(TitleKey(sorted[i]), TitleKey(sorted[j]))
  {
    assert forall i, j :: 0 <= i < j < |sorted| ==> ProjectPrecedes(titleLeq, sorted[i], sorted[j]);
  }

  /** A project is listed exactly when some listed file is readable, has title,
      summary and role, and yields it — whatever its status. */
  lemma ProjectListingMembers(dir: Directory<ProjectFrontmatter>, titleLeq: (string, string) -> bool, p: ProjectMeta)
    requires TotalPreorder(titleLeq) && LoadProjects(dir, titleLeq).Success?
    ensures p in LoadProjects(dir, titleLeq).value <==>
      exists i :: 0 <= i < |ListFiles(dir).value| && Kept(ListFiles(dir).value[i], ProjectAdmitted)
                  && p == ToProjectMeta(Slug(ListFiles(dir).value[i].name), ListFiles(dir).value[i].content.value)
    ensures p in LoadProjects(dir, titleLeq).value ==> Truthy(p.title) && Truthy(p.summary) && Truthy(p.role)
  {
    var files := ListFiles(dir).value;
    RetainedMembers(files, ProjectAdmitted, ToProjectMeta, p);
    assert p in LoadProjects(dir, titleLeq).value <==> p in multiset(Retained(files, ProjectAdmitted, ToProjectMeta));
  }

  /** `loadProject`: any existing, readable project file, with no status or
      field check; `None` when neither extension exists. */
  function LoadProject(dir: Directory<ProjectFrontmatter>, slug: string): (r: Result<Option<ProjectMeta>, string>)
    ensures Resolve(dir, slug).None? <==> r == Success(None)
    ensures r.Failure? <==> Resolve(dir, slug).Some? && Resolve(dir, slug).value.content.Failure?
    ensures r.Failure? ==> r.error == Resolve(dir, slug).value.content.error
    ensures r.Success? && r.value.Some? ==>
      r.value.value == ToProjectMeta(slug, Resolve(dir, slug).value.content.value)
  {
    match Resolve(dir, slug)
    case None => Success(None)
    case Some(e) =>
      match e.content
      case Failure(err) => Failure(err)
      case Success(fm) => Success(Some(ToProjectMeta(slug, fm)))
  }
}

=== FILE: home.dfy ===
/** The derivations of the home page, `src/components/home-content.tsx`:
    the featured projects and recent posts it shows, the skill chips built from
    the featured projects' stacks, the skill filter, and the chip toggle. */
module Home {
  import opened Wrappers
  import opened Seqs
  import opened Content

  /** How many featured projects, recent posts and skill chips the page shows. */
  const SHOWN: nat := 3

  predicate IsFeatured(p: ProjectMeta) {
    p.featured
  }

  /** `p.stack || []` */
  function StackOf(p: ProjectMeta): seq<string> {
    p.stack.GetOr([])
  }

  /** `post.tags ?? []` as far as `includes` is concerned. */
  function TagsOf(p: PostMeta): seq<string> {
    p.tags.GetOr([])
  }

  /** `projects.filter(p => p.featured).slice(0, 3)` */
  function FeaturedProjects(projects: seq<ProjectMeta>): (r: seq<ProjectMeta>)
    ensures |r| <= SHOWN
    ensures forall i :: 0 <= i < |r| ==> r[i].featured && r[i] in projects
    ensures r <= Filter(IsFeatured, projects)
    ensures |r| == Min(SHOWN, |Filter(IsFeatured, projects)|)
  {
    Take(Filter(IsFeatured, projects), SHOWN)
  }

  /** With at most three featured projects, every one of them is shown. */
  lemma FewFeaturedAllShown(projects: seq<ProjectMeta>, i: nat)
    requires |Filter(IsFeatured, projects)| <= SHOWN
    requires i < |projects| && projects[i].featured
    ensures projects[i] in FeaturedProjects(projects)
  {
  }

  /** `posts.slice(0, 3)` */
  function RecentPosts(posts: seq<PostMeta>): (r: seq<PostMeta>)
    ensures r <= posts
    ensures |r| == Min(SHOWN, |posts|)
  {
    Take(posts, SHOWN)
  }

  function Stacks(projects: seq<ProjectMeta>): (r: seq<seq<string>>)
    ensures |r| == |projects|
    ensures forall i :: 0 <= i < |projects| ==> r[i] == StackOf(projects[i])
  {
    if |projects| == 0 then [] else [StackOf(projects[0])] + Stacks(projects[1..])
  }

  /** The first three stack entries of the featured projects, in order. */
  function SkillPool(featured: seq<ProjectMeta>): seq<string> {
    Take(Concat(Stacks(featured)), SHOWN)
  }

  /** `Array.from(new Set(featured.flatMap(p => p.stack || []).slice(0, 3)))` */
  function SkillsFromProjects(featured: seq<ProjectMeta>): (r: seq<string>)
    ensures |r| <= SHOWN
    ensures NoDups(r)
    ensures forall i :: 0 <= i < |r| ==> r[i] in SkillPool(featured)
    ensures forall i :: 0 <= i < |SkillPool(featured)| ==> SkillPool(featured)[i] in r
    ensures forall i, j :: 0 <= i < j < |r| ==>
      FirstIndex(SkillPool(featured), r[i]) < FirstIndex(SkillPool(featured), r[j])
  {
    Dedup(SkillPool(featured))
  }

  /** Every chip names a technology from some featured project's stack. */
  lemma {:induction false} ConcatMember(xss: seq<seq<string>>, x: string)
    requires x in Concat(xss)
    ensures exists i :: 0 <= i < |xss| && x in xss[i]
    decreases |xss|
  {
    if x !in xss[0] {
      ConcatMember(xss[1..], x);
      var i :| 0 <= i < |xss[1..]| && x in xss[1..][i];
      assert x in xss[i + 1];
    }
  }

  lemma SkillComesFromStack(featured: seq<ProjectMeta>, skill: string)
    requires skill in SkillsFromProjects(featured)
    ensures exists i :: 0 <= i < |featured| && skill in StackOf(featured[i])
  {
    var pool := SkillPool(featured);
    var k :| 0 <= k < |SkillsFromProjects(featured)| && SkillsFromProjects(featured)[k] == skill;
    assert skill in Concat(Stacks(featured)) by {
      assert pool <= Concat(Stacks(featured));
    }
    ConcatMember(Stacks(featured), skill);
  }

  // ---------------------------------------------------------------------------
  // The skill filter

  /** `selectedSkill ? … : …`: a selection filters only when it is a
      non-empty string (JavaScript truthiness). */
  predicate Filtering(selected: Option<string>) {
    selected.Some? && selected.value != ""
  }

  function UsesSkill(skill: string): ProjectMeta -> bool {
    p => skill in StackOf(p)
  }

  function TaggedWith(skill: string): PostMeta -> bool {
    p => skill in TagsOf(p)
  }

  /** `filteredProjects`: the featured projects whose stack includes the
      selected skill, in order; all of them when nothing filters. */
  function FilteredProjects(featured: seq<ProjectMeta>, selected: Option<string>): (r: seq<ProjectMeta>)
    ensures !Filtering(selected) ==> r == featured
    ensures Filtering(selected) ==>
      && (forall i :: 0 <= i < |r| ==> r[i] in featured && selected.value in StackOf(r[i]))
      && (forall i :: 0 <= i < |featured| && selected.value in StackOf(featured[i]) ==> featured[i] in r)
      && r == Filter(UsesSkill(selected.value), featured)
  {
    if Filtering(selected) then Filter(UsesSkill(selected.value), featured) else featured
  }

  /** `filteredPosts`: the recent posts tagged with the selected skill, in
      order; all of them when nothing filters. */
  function FilteredPosts(recent: seq<PostMeta>, selected: Option<string>): (r: seq<PostMeta>)
    ensures !Filtering(selected) ==> r == recent
    ensures Filtering(selected) ==>
      && (forall i :: 0 <= i < |r| ==> r[i] in recent && selected.value in TagsOf(r[i]))
      && (forall i :: 0 <= i < |recent| && selected.value in TagsOf(recent[i]) ==> recent[i] in r)
      && r == Filter(TaggedWith(selected.value), recent)
  {
    if Filtering(selected) then Filter(TaggedWith(selected.value), recent) else recent
  }

  /** The chip's click handler: select the skill, or clear the selection if
      the skill was already selected. */
  function Toggle(selected: Option<string>, skill: string): (r: Option<string>)
    ensures r == None <==> selected == Some(skill)
    ensures r != None ==> r == Some(skill)
  {
    if selected == Some(skill) then None else Some(skill)
  }

  /** Clicking the same chip twice restores the selection exactly when it was
      empty or already that chip; after a different chip it ends up cleared. */
  lemma ToggleTwice(selected: Option<string>, skill: string)
    ensures Toggle(Toggle(selected, skill), skill) == selected <==>
            selected == None || selected == Some(skill)
    ensures Toggle(Toggle(selected, skill), skill) == None <==> selected != Some(skill)
  {
  }

  // ---------------------------------------------------------------------------
  // The page as a whole

  datatype HomeView = HomeView(
    featured: seq<ProjectMeta>,
    recent: seq<PostMeta>,
    skills: seq<string>,
    shownProjects: seq<ProjectMeta>,
    shownPosts: seq<PostMeta>)

  /** Everything `HomeContent` derives from its props and its selection state. */
  function Derive(projects: seq<ProjectMeta>, posts: seq<PostMeta>, selected: Option<string>): (v: HomeView)
    ensures |v.shownProjects| <= |v.featured| <= SHOWN
    ensures |v.shownPosts| <= |v.recent| <= SHOWN
    ensures |v.skills| <= SHOWN
    ensures v.featured == FeaturedProjects(projects) && v.recent == RecentPosts(posts)
    ensures v.skills == SkillsFromProjects(v.featured)
    ensures v.shownProjects == FilteredProjects(v.featured, selected)
    ensures v.shownPosts == FilteredPosts(v.recent, selected)
    ensures v.recent <= posts
    ensures forall i :: 0 <= i < |v.shownProjects| ==> v.shownProjects[i] in projects && v.shownProjects[i].featured
    ensures forall i :: 0 <= i < |v.shownPosts| ==> v.shownPosts[i] in v.recent
    ensures forall i :: 0 <= i < |v.skills| ==> exists j :: 0 <= j < |v.featured| && v.skills[i] in StackOf(v.featured[j])
    ensures !Filtering(selected) ==> v.shownProjects == v.featured && v.shownPosts == v.recent
    ensures Filtering(selected) ==>
      && (forall i :: 0 <= i < |v.shownProjects| ==> selected.value in StackOf(v.shownProjects[i]))
      && (forall i :: 0 <= i < |v.shownPosts| ==> selected.value in TagsOf(v.shownPosts[i]))
  {
    var featured := FeaturedProjects(projects);
    var recent := RecentPosts(posts);
    var skills := SkillsFromProjects(featured);
    SkillsFromFeaturedStacks(featured, skills);
    ShownAreFeatured(projects, featured, selected);
    HomeView(featured, recent, skills, FilteredProjects(featured, selected), FilteredPosts(recent, selected))
  }

  lemma SkillsFromFeaturedStacks(featured: seq<ProjectMeta>, skills: seq<string>)
    requires skills == SkillsFromProjects(featured)
    ensures forall i :: 0 <= i < |skills| ==> exists j :: 0 <= j < |featured| && skills[i] in StackOf(featured[j])
  {
    forall i | 0 <= i < |skills|
      ensures exists j :: 0 <= j < |featured| && skills[i] in StackOf(featured[j])
    {
      SkillComesFromStack(featured, skills[i]);
    }
  }

  lemma ShownAreFeatured(projects: seq<ProjectMeta>, featured: seq<ProjectMeta>, selected: Option<string>)
    requires featured == FeaturedProjects(projects)
    ensures forall i :: 0 <= i < |FilteredProjects(featured, selected)| ==>
      FilteredProjects(featured, selected)[i] in projects && FilteredProjects(featured, selected)[i].featured
  {
    var shown := FilteredProjects(featured, selected);
    forall i | 0 <= i < |shown|
      ensures shown[i] in projects && shown[i].featured
    {
      var k :| 0 <= k < |featured| && featured[k] == shown[i];
    }
  }

  /** Choosing any chip never leaves the featured-projects section empty:
      the chip's skill comes from a featured project's stack. The chips
      offered are the skills of the featured projects. */
  lemma ChipKeepsAProject(projects: seq<ProjectMeta>, posts: seq<PostMeta>, skill: string)
    requires skill in SkillsFromProjects(FeaturedProjects(projects))
    ensures |Derive(projects, posts, Toggle(None, skill)).shownProjects| > 0
  {
    var featured := FeaturedProjects(projects);
    var after := Derive(projects, posts, Toggle(None, skill));
    assert after.shownProjects == FilteredProjects(featured, Some(skill));
    SkillKeepsAProject(featured, skill);
  }

  lemma SkillKeepsAProject(featured: seq<ProjectMeta>, skill: string)
    requires skill in SkillsFromProjects(featured)
    ensures |FilteredProjects(featured, Some(skill))| > 0
  {
    SkillComesFromStack(featured, skill);
    var i :| 0 <= i < |featured| && skill in StackOf(featured[i]);
    assert featured[i] in FilteredProjects(featured, Some(skill));
  }
}

=== FILE: markup.dfy ===
/** The rendering rule table of `src/lib/mdx-components.tsx`: the closed set of
    markup node kinds the long-form renderer hands to custom components, and
    the element each kind becomes.

    The table's utility-class strings are presentation; an element's class is
    recorded as which fixed style of the table it gets (`Styled`) or that it
    passes the caller's class through (`Passed`). */
module Markup {
  import opened Wrappers
  import opened Seqs

  /** The keys of the component table. */
  datatype Kind =
    | H1 | H2 | H3 | H4 | P | A | Ul | Ol | Li | Code | Pre
    | Blockquote | Hr | Img | Table | Th | Td

  /** The element name each kind is registered under. */
  function KindName(k: Kind): string {
    match k
    case H1 => "h1"
    case H2 => "h2"
    case H3 => "h3"
    case H4 => "h4"
    case P => "p"
    case A => "a"
    case Ul => "ul"
    case Ol => "ol"
    case Li => "li"
    case Code => "code"
    case Pre => "pre"
    case Blockquote => "blockquote"
    case Hr => "hr"
    case Img => "img"
    case Table => "table"
    case Th => "th"
    case Td => "td"
  }

  /** Component lookup by element name: `Some` exactly for the table's keys;
      any other element keeps its default rendering. */
  function Lookup(name: string): Option<Kind> {
    if name == "h1" then Some(H1)
    else if name == "h2" then Some(H2)
    else if name == "h3" then Some(H3)
    else if name == "h4" then Some(H4)
    else if name == "p" then Some(P)
    else if name == "a" then Some(A)
    else if name == "ul" then Some(Ul)
    else if name == "ol" then Some(Ol)
    else if name == "li" then Some(Li)
    else if name == "code" then Some(Code)
    else if name == "pre" then Some(Pre)
    else if name == "blockquote" then Some(Blockquote)
    else if name == "hr" then Some(Hr)
    else if name == "img" then Some(Img)
    else if name == "table" then Some(Table)
    else if name == "th" then Some(Th)
    else if name == "td" then Some(Td)
    else None
  }

  /** The table is closed and unambiguous: every kind is found under its own
      name, and every name that is found names exactly that kind. */
  lemma LookupIsInverseOfKindName(k: Kind, name: string)
    ensures Lookup(KindName(k)) == Some(k)
    ensures Lookup(name) == Some(k) ==> KindName(k) == name
  {
    if Lookup(name) == Some(k) {
      FoundUnderItsName(name);
    }
  }

  /** A name the table knows is the name of the kind found under it. */
  lemma FoundUnderItsName(name: string)
    requires Lookup(name).Some?
    ensures KindName(Lookup(name).value) == name
  {
  }

  /** Which of the table's fixed styles an element gets. `Rule(k)` is the
      style of the outermost element of kind `k`'s rule. */
  datatype Style = Rule(kind: Kind) | PreInnerCode | TableInner

  datatype ClassAttr = Styled(style: Style) | Passed(className: Option<string>)

  datatype Attr = Attr(name: string, value: Option<string>)

  datatype Html =
    | Text(text: string)
    | Element(tag: string, cls: ClassAttr, attrs: seq<Attr>, children: seq<Html>)

  /** The props a component receives. */
  datatype Props = Props(
    children: seq<Html>,
    href: Option<string>,
    className: Option<string>,
    src: Option<string>,
    alt: Option<string>)

  const LANGUAGE_PREFIX := "language-"

  /** `!className?.includes("language-")`: code with no language class is inline. */
  predicate IsInlineCode(className: Option<string>) {
    className.None? || !HasSubstring(className.value, LANGUAGE_PREFIX)
  }

  /** Code is fenced exactly when its class contains `language-` somewhere. */
  lemma InlineCodeIff(className: Option<string>)
    ensures IsInlineCode(className) <==>
      className.None? || forall i: nat :: !OccursAt(className.value, LANGUAGE_PREFIX, i)
  {
    if className.Some? {
      HasSubstringIff(className.value, LANGUAGE_PREFIX);
    }
  }

  /** The rule for `kind` applied to `props`. */
  function Render(kind: Kind, props: Props): (h: Html)
    ensures h.Element?
    ensures kind == Hr || kind == Img ==> h.children == []
    ensures kind !in {Hr, Img, Pre, Table} ==> h.children == props.children
    ensures kind == Pre || kind == Table ==> |h.children| == 1 && h.children[0].Element? && h.children[0].children == props.children
    ensures kind != Code ==> h.cls == Styled(Rule(kind))
  {
    match kind
    case A => Element("a", Styled(Rule(A)), [Attr("href", props.href)], props.children)
    case Code =>
      if IsInlineCode(props.className) then Element("code", Styled(Rule(Code)), [], props.children)
      else Element("code", Passed(props.className), [], props.children)
    case Pre =>
      Element("pre", Styled(Rule(Pre)), [], [Element("code", Styled(PreInnerCode), [], props.children)])
    case Hr => Element("hr", Styled(Rule(Hr)), [], [])
    case Img => Element("img", Styled(Rule(Img)), [Attr("src", props.src), Attr("alt", props.alt)], [])
    case Table =>
      Element("div", Styled(Rule(Table)), [], [Element("table", Styled(TableInner), [], props.children)])
    case _ => Element(KindName(kind), Styled(Rule(kind)), [], props.children)
  }

  /** Each rule renders the element its key names; only a table is wrapped,
      in a scrolling container. */
  lemma RenderedTag(kind: Kind, props: Props)
    ensures kind != Table ==> Render(kind, props).tag == KindName(kind)
    ensures kind == Table ==> Render(kind, props).tag == "div" && Render(kind, props).children[0].tag == "table"
  {
  }

  /** The heading level an element name denotes, if it is a heading. */
  function HeadingLevel(tag: string): Option<nat> {
    if |tag| == 2 && tag[0] == 'h' && '1' <= tag[1] <= '6' then Some(tag[1] as int - '0' as int) else None
  }

  /** Headings keep their level: `h1`..`h4` render as headings of levels 1..4. */
  lemma HeadingsKeepLevel(props: Props)
    ensures HeadingLevel(Render(H1, props).tag) == Some(1)
    ensures HeadingLevel(Render(H2, props).tag) == Some(2)
    ensures HeadingLevel(Render(H3, props).tag) == Some(3)
    ensures HeadingLevel(Render(H4, props).tag) == Some(4)
    ensures forall k :: k !in {H1, H2, H3, H4} ==> HeadingLevel(Render(k, props).tag) == None
  {
  }

  /** Inline code drops the caller's class for the fixed inline style; fenced
      code keeps the caller's class, and with it the language tag. */
  lemma CodeClass(props: Props)
    ensures IsInlineCode(props.className) ==> Render(Code, props).cls == Styled(Rule(Code))
    ensures !IsInlineCode(props.className) ==>
      Render(Code, props).cls == Passed(props.className) && HasSubstring(props.className.value, LANGUAGE_PREFIX)
  {
  }

  /** A fenced block tagged `language-python` keeps that class; a span with
      no class renders as inline code. */
  lemma CodeExamples(children: seq<Html>)
    ensures Render(Code, Props(children, None, Some("language-python"), None, None))
         == Element("code", Passed(Some("language-python")), [], children)
    ensures Render(Code, Props(children, None, None, None, None)).cls == Styled(Rule(Code))
  {
    assert "language-python"[..|LANGUAGE_PREFIX|] == LANGUAGE_PREFIX;
  }

  /** A link keeps its target. */
  lemma LinkKeepsTarget(props: Props)
    ensures Render(A, props).tag == "a"
    ensures Render(A, props).attrs == [Attr("href", props.href)]
    ensures Render(A, props).children == props.children
  {
  }

  /** An image keeps its source and alternative text, and has no children. */
  lemma ImageKeepsSourceAndAlt(props: Props)
    ensures Render(Img, props).tag == "img"
    ensures Render(Img, props).attrs == [Attr("src", props.src), Attr("alt", props.alt)]
    ensures Render(Img, props).children == []
  {
  }
}

=== FILE: seqs.dfy ===
/** Sequence operations the source borrows from JavaScript's `Array` and
    `String` prototypes (`filter`, `slice`, `flatMap`, `includes`, `endsWith`,
    `Array.from(new Set(...))`), each with the meaning its callers rely on. */
module Seqs {

  function Min(a: int, b: int): int {
    if a <= b then a else b
  }

  /** No element occurs twice. */
  ghost predicate NoDups<T>(s: seq<T>) {
    forall i, j :: 0 <= i < j < |s| ==> s[i] != s[j]
  }

  /** `s.filter(p)`: the elements satisfying `p`, in their original order. */
  function Filter<T>(p: T -> bool, s: seq<T>): (r: seq<T>)
    ensures |r| <= |s|
    ensures forall i :: 0 <= i < |r| ==> r[i] in s && p(r[i])
    ensures forall i :: 0 <= i < |s| && p(s[i]) ==> s[i] in r
  {
    if |s| == 0 then []
    else (if p(s[0]) then [s[0]] else []) + Filter(p, s[1..])
  }

  /** Filtering a concatenation filters each part: with `FilterOne` this pins
      `Filter` down as the order-preserving selection. */
  lemma {:induction false} FilterAppend<T>(p: T -> bool, a: seq<T>, b: seq<T>)
    ensures Filter(p, a + b) == Filter(p, a) + Filter(p, b)
    decreases |a|
  {
    if |a| == 0 {
      assert a + b == b;
    } else {
      assert (a + b)[1..] == a[1..] + b;
      FilterAppend(p, a[1..], b);
    }
  }

  lemma FilterOne<T>(p: T -> bool, x: T)
    ensures Filter(p, [x]) == if p(x) then [x] else []
  {
    assert [x][1..] == [];
  }

  /** Filtering keeps every element exactly as often as it occurs, when it
      satisfies `p`, and drops it otherwise. */
  lemma {:induction false} FilterCount<T>(p: T -> bool, s: seq<T>, x: T)
    ensures multiset(Filter(p, s))[x] == if p(x) then multiset(s)[x] else 0
    decreases |s|
  {
    if |s| > 0 {
      FilterCount(p, s[1..], x);
      assert s == [s[0]] + s[1..];
    }
  }

  /** `s.slice(0, n)`: the first `n` elements, or all of them if fewer. */
  function Take<T>(s: seq<T>, n: nat): (r: seq<T>)
    ensures |r| == Min(n, |s|)
    ensures r <= s
  {
    if n <= |s| then s[..n] else s
  }

  /** `xss.flatMap(xs => xs)`: the concatenation of all parts, in order. */
  function Concat<T>(xss: seq<seq<T>>): (r: seq<T>)
    ensures forall i :: 0 <= i < |xss| ==> multiset(xss[i]) <= multiset(r)
  {
    if |xss| == 0 then [] else xss[0] + Concat(xss[1..])
  }

  /** `s.endsWith(suffix)`. */
  predicate EndsWith<T(==)>(s: seq<T>, suffix: seq<T>) {
    |suffix| <= |s| && s[|s| - |suffix|..] == suffix
  }

  /** Independent reading of `EndsWith`: `s` is `suffix` preceded by something. */
  lemma EndsWithIff<T>(s: seq<T>, suffix: seq<T>)
    ensures EndsWith(s, suffix) <==> exists front :: s == front + suffix
  {
    if EndsWith(s, suffix) {
      assert s == s[..|s| - |suffix|] + suffix;
    }
    if exists front :: s == front + suffix {
      var front :| s == front + suffix;
      assert s[|s| - |suffix|..] == suffix;
    }
  }

  /** `sub` occurs in `s` starting at position `i`. */
  ghost predicate OccursAt<T>(s: seq<T>, sub: seq<T>, i: nat) {
    i + |sub| <= |s| && s[i..i + |sub|] == sub
  }

  /** `s.includes(sub)` on strings: `sub` occurs somewhere in `s` as a
      contiguous block. Searched left to right, one start position at a time. */
  predicate HasSubstring<T(==)>(s: seq<T>, sub: seq<T>)
    decreases |s|
  {
    |sub| <= |s| && (s[..|sub|] == sub || HasSubstring(s[1..], sub))
  }

  /** The search finds `sub` exactly when it occurs at some position. */
  lemma {:induction false} HasSubstringIff<T>(s: seq<T>, sub: seq<T>)
    ensures HasSubstring(s, sub) <==> exists i: nat :: OccursAt(s, sub, i)
    decreases |s|
  {
    if |sub| <= |s| && s[..|sub|] == sub {
      assert OccursAt(s, sub, 0);
    } else if |sub| <= |s| {
      HasSubstringIff(s[1..], sub);
      if HasSubstring(s[1..], sub) {
        var i: nat :| OccursAt(s[1..], sub, i);
        assert s[i + 1..i + 1 + |sub|] == s[1..][i..i + |sub|];
        assert OccursAt(s, sub, i + 1);
      }
      if exists i: nat :: OccursAt(s, sub, i) {
        var i: nat :| OccursAt(s, sub, i);
        if i > 0 {
          assert s[1..][i - 1..i - 1 + |sub|] == s[i..i + |sub|];
          assert OccursAt(s[1..], sub, i - 1);
        }
      }
    }
  }

  /** Position of the first occurrence of `x` in `s`. */
  function FirstIndex<T(==)>(s: seq<T>, x: T): (i: nat)
    requires x in s
    ensures i < |s| && s[i] == x && x !in s[..i]
  {
    if s[0] == x then 0
    else
      var j := FirstIndex(s[1..], x);
      assert s[..j + 1] == [s[0]] + s[1..][..j];
      j + 1
  }

  /** The first occurrence in a prefix is the first occurrence in the whole. */
  lemma FirstIndexPrefix<T>(s: seq<T>, n: nat, x: T)
    requires n <= |s| && x in s[..n]
    ensures FirstIndex(s[..n], x) == FirstIndex(s, x)
  {
    var i, j := FirstIndex(s[..n], x), FirstIndex(s, x);
    assert s[..n][..i] == s[..i];
  }

  /** `Array.from(new Set(s))`: the distinct elements of `s`, each at the
      position of its first occurrence (a `Set` iterates in insertion order). */
  function Dedup<T(==)>(s: seq<T>): (r: seq<T>)
    ensures IsDedup(s, r)
    decreases |s|
  {
    if |s| == 0 then []
    else
      var d := Dedup(s[..|s| - 1]);
      DedupExtend(s, d);
      if s[|s| - 1] in d then d else d + [s[|s| - 1]]
  }

  /** `r` holds each distinct element of `s` once, ordered by first occurrence. */
  ghost predicate IsDedup<T>(s: seq<T>, r: seq<T>) {
    && NoDups(r)
    && (forall i :: 0 <= i < |r| ==> r[i] in s)
    && (forall i :: 0 <= i < |s| ==> s[i] in r)
    && |r| <= |s|
    && (forall i, j :: 0 <= i < j < |r| ==> FirstIndex(s, r[i]) < FirstIndex(s, r[j]))
  }

  /** Adding one element at the end keeps the de-duplication correct. */
  lemma DedupExtend<T>(s: seq<T>, d: seq<T>)
    requires |s| > 0 && IsDedup(s[..|s| - 1], d)
    ensures IsDedup(s, if s[|s| - 1] in d then d else d + [s[|s| - 1]])
  {
    DedupCover(s, d);
    DedupOrder(s, d);
  }

  lemma DedupCover<T>(s: seq<T>, d: seq<T>)
    requires |s| > 0 && IsDedup(s[..|s| - 1], d)
    ensures var r := if s[|s| - 1] in d then d else d + [s[|s| - 1]];
      && (forall i :: 0 <= i < |s| ==> s[i] in r)
      && (forall i :: 0 <= i < |r| ==> r[i] in s)
  {
    var r := if s[|s| - 1] in d then d else d + [s[|s| - 1]];
    forall i | 0 <= i < |s|
      ensures s[i] in r
    {
      if i < |s| - 1 {
        assert s[i] == s[..|s| - 1][i];
      }
    }
  }

  lemma DedupOrder<T>(s: seq<T>, d: seq<T>)
    requires |s| > 0 && IsDedup(s[..|s| - 1], d)
    ensures var r := if s[|s| - 1] in d then d else d + [s[|s| - 1]];
      && NoDups(r)
      && (forall i, j :: 0 <= i < j < |r| ==> FirstIndex(s, r[i]) < FirstIndex(s, r[j]))
  {
    var init, last := s[..|s| - 1], s[|s| - 1];
    forall k | 0 <= k < |d|
      ensures FirstIndex(s, d[k]) == FirstIndex(init, d[k]) < |init|
    {
      FirstIndexPrefix(s, |s| - 1, d[k]);
    }
    if last !in d {
      assert last !in init;
      assert FirstIndex(s, last) == |init|;
    }
  }
}

=== FILE: sorting.dfy ===
/** The ordering behind `Array.prototype.sort` with a comparator: a stable sort
    (ECMAScript 2019 requires stability) under a consistent comparator, which
    here is a total preorder `leq` — `leq(a, b)` iff the comparator returns a
    value `<= 0` for `(a, b)`. Insertion sort is used as the reference
    algorithm; the lemmas pin down its result as the unique stable ordering. */
module Sorting {
  import opened Seqs

  /** A consistent comparator: any two elements compare, and comparison chains. */
  ghost predicate TotalPreorder<T(!new)>(leq: (T, T) -> bool) {
    && (forall x, y :: leq(x, y) || leq(y, x))
    && (forall x, y, z :: leq(x, y) && leq(y, z) ==> leq(x, z))
  }

  ghost predicate SortedBy<T>(s: seq<T>, leq: (T, T) -> bool) {
    forall i, j :: 0 <= i < j < |s| ==> leq(s[i], s[j])
  }

  /** Inserts `x` before the first element it does not come after. */
  function Insert<T(!new)>(x: T, s: seq<T>, leq: (T, T) -> bool): (r: seq<T>)
    requires TotalPreorder(leq) && SortedBy(s, leq)
    ensures SortedBy(r, leq)
    ensures multiset(r) == multiset(s) + multiset{x}
    ensures |r| == |s| + 1
  {
    if |s| == 0 then [x]
    else if leq(x, s[0]) then [x] + s
    else
      var rest := Insert(x, s[1..], leq);
      InsertBehindHead(x, s, rest, leq);
      [s[0]] + rest
  }

  /** When `x` goes after the head of `s`, the head still comes first. */
  lemma InsertBehindHead<T(!new)>(x: T, s: seq<T>, rest: seq<T>, leq: (T, T) -> bool)
    requires TotalPreorder(leq) && SortedBy(s, leq) && |s| > 0 && !leq(x, s[0])
    requires SortedBy(rest, leq) && multiset(rest) == multiset(s[1..]) + multiset{x}
    ensures SortedBy([s[0]] + rest, leq)
    ensures multiset([s[0]] + rest) == multiset(s) + multiset{x}
  {
    forall k | 0 <= k < |rest|
      ensures leq(s[0], rest[k])
    {
      assert rest[k] in multiset(rest);
      if rest[k] != x {
        assert rest[k] in multiset(s[1..]);
        var j :| 0 <= j < |s[1..]| && s[1..][j] == rest[k];
        assert s[j + 1] == rest[k];
      }
    }
    var r := [s[0]] + rest;
    forall i, j | 0 <= i < j < |r|
      ensures leq(r[i], r[j])
    {
      if i > 0 {
        assert r[i] == rest[i - 1] && r[j] == rest[j - 1];
      } else {
        assert r[j] == rest[j - 1];
      }
    }
    assert s == [s[0]] + s[1..];
  }

  /** Sorts `s` by `leq`, keeping equivalent elements in their input order. */
  function InsertionSort<T(!new)>(s: seq<T>, leq: (T, T) -> bool): (r: seq<T>)
    requires TotalPreorder(leq)
    ensures SortedBy(r, leq)
    ensures multiset(r) == multiset(s)
    ensures |r| == |s|
  {
    if |s| == 0 then []
    else
      assert s == [s[0]] + s[1..];
      Insert(s[0], InsertionSort(s[1..], leq), leq)
  }

  /** A single element is already sorted. */
  lemma SortOne<T(!new)>(x: T, leq: (T, T) -> bool)
    requires TotalPreorder(leq)
    ensures InsertionSort([x], leq) == [x]
  {
    assert [x][1..] == [];
  }

  /** Elements the comparator cannot tell apart from `y`, as a filter predicate. */
  function EquivalentTo<T>(leq: (T, T) -> bool, y: T): T -> bool {
    z => leq(y, z) && leq(z, y)
  }

  lemma FilterCons<T>(p: T -> bool, x: T, s: seq<T>)
    ensures Filter(p, [x] + s) == (if p(x) then [x] else []) + Filter(p, s)
  {
    assert ([x] + s)[1..] == s;
  }

  /** An element that does not come before `s0` cannot share a class with it. */
  lemma NotBothEquivalent<T(!new)>(leq: (T, T) -> bool, x: T, s0: T, y: T)
    requires TotalPreorder(leq) && !leq(x, s0)
    ensures !(EquivalentTo(leq, y)(x) && EquivalentTo(leq, y)(s0))
  {
  }

  /** Swapping two adjacent elements that are not both kept leaves a filter
      unchanged. */
  lemma FilterSwap<T>(p: T -> bool, a: T, b: T, tail: seq<T>)
    requires !(p(a) && p(b))
    ensures Filter(p, [a] + ([b] + tail)) == Filter(p, [b] + ([a] + tail))
  {
    FilterCons(p, a, [b] + tail);
    FilterCons(p, b, tail);
    FilterCons(p, b, [a] + tail);
    FilterCons(p, a, tail);
  }

  /** Inserting `x` puts it ahead of every element equivalent to it. */
  lemma {:induction false} InsertStable<T(!new)>(x: T, s: seq<T>, leq: (T, T) -> bool, y: T)
    requires TotalPreorder(leq) && SortedBy(s, leq)
    ensures Filter(EquivalentTo(leq, y), Insert(x, s, leq))
         == Filter(EquivalentTo(leq, y), [x] + s)
    decreases |s|
  {
    if |s| > 0 && !leq(x, s[0]) {
      var p := EquivalentTo(leq, y);
      var s0, tail := s[0], s[1..];
      assert SortedBy(tail, leq);
      var rest := Insert(x, tail, leq);
      assert Insert(x, s, leq) == [s0] + rest;
      InsertStable(x, tail, leq, y);
      FilterCons(p, s0, rest);
      FilterCons(p, s0, [x] + tail);
      assert Filter(p, Insert(x, s, leq)) == Filter(p, [s0] + ([x] + tail));
      NotBothEquivalent(leq, x, s0, y);
      FilterSwap(p, s0, x, tail);
      assert s == [s0] + tail;
    }
  }

  /** Stability: for every class of equivalent elements, the sort keeps that
      class in exactly the order the input had it. */
  lemma {:induction false} SortStable<T(!new)>(s: seq<T>, leq: (T, T) -> bool, y: T)
    requires TotalPreorder(leq)
    ensures Filter(EquivalentTo(leq, y), InsertionSort(s, leq)) == Filter(EquivalentTo(leq, y), s)
    decreases |s|
  {
    if |s| > 0 {
      var p := EquivalentTo(leq, y);
      var sorted := InsertionSort(s[1..], leq);
      InsertStable(s[0], sorted, leq, y);
      FilterCons(p, s[0], sorted);
      SortStable(s[1..], leq, y);
      assert s == [s[0]] + s[1..];
      FilterCons(p, s[0], s[1..]);
    }
  }
}

=== FILE: wrappers.dfy ===
/** Wrappers used throughout the model: `Option` stands for the source's
    `undefined`/`null`, and `Result`, which supports `:-`, for a promise that
    either resolves or rejects with an error. */
module Wrappers {

  datatype Option<+T> = None | Some(value: T) {

    /** The value, or `default` when absent (the source's `x || default`). */
    function GetOr(default: T): T {
      match this
      case Some(v) => v
      case None => default
    }
  }

  datatype Result<+R, +E> = Success(value: R) | Failure(error: E) {

    predicate IsFailure() {
      Failure?
    }

    function PropagateFailure<U>(): Result<U, E>
      requires Failure?
    {
      Failure(error)
    }

    function Extract(): R
      requires Success?
    {
      value
    }
  }
}
